=== FILE: README.md ===
# spotitube core, modelled in Dafny

`script.py` gathers song records from Spotify and from YouTube Music. It removes duplicate songs. It then resolves every remaining song to a YouTube video, optionally downloads the audio, and reports per-song outcomes plus a success/failure summary. This project models the decision and string logic of that pipeline as pure Dafny functions over immutable datatypes, and proves properties of it:

- **Deduplication** (`dedup.dfy`). This is the loop in `main` that keeps the first record for each identifier `name + "|" + artist`.
- **File names** (`download.dfy`). This is the sanitiser of `download_youtube_audio` and the path it returns. Python's Unicode-aware `str.isalnum` is the parameter `isAlnum`.
- **YouTube Music listings** (`listing.dfy`). A title is split into artist and song at the first `" - "`, and a listing entry becomes a song record.
- **Cookie file** (`cookies.dfy`). The browser cookie header becomes Netscape cookie-file lines.
- **Resolution** (`resolution.dfy`). This covers `search_youtube_for_song` and `process_song`. The search tool and the downloader are function parameters (`Backends`), and every exception becomes a failed outcome.
- **Reporting** (`report.dfy`). The `as_completed` loop collects results and counts successes in whatever order the jobs finish. The summary counts follow from that.
- **The pipeline** (`pipeline.dfy`). It chains deduplication, the confirmation asked for more than 1000 songs, one task per unique song, and collection. Its proofs cover every completion order: each unique song is reported exactly once, the counts are order-independent, and a failing task does not affect the others.

Supporting modules:

- `options.dfy` holds `Option`.
- `sequences.dfy` holds subsequences and `MapSeq`.
- `text.dfy` holds Python's `str.isspace`, `strip`, `in`, `split` and `split(sep, 1)`, `join`, and decimal `f"{n}"`.
- `records.dfy` holds the record types. A dictionary entry is `Field = Absent | Null | Text(s)`, so that `d.get(key, default)`, stored `None` values and truthiness tests behave as in Python.

Behaviours of the code worth knowing:

- The duplicate identifier is one concatenated string, not a (name, artist) pair. So `("a|b", "c")` and `("a", "b|c")` collide (`Dedup.BarInNameCollides`).
- A song with a video id whose download fails is reported as "Download failed". The code does not fall back to a search.
- In download mode, a search hit without a downloaded file still counts as a success and is reported as "Found" (`Resolution.FoundWithoutFileStillSucceeds`).
- When creating the download folder raises during a search, the search swallows the exception and the song reads "Not found" (`Resolution.FolderFailureReadsAsNotFound`). On the direct path the same failure reads "Error".
- File names are not unique per song (`Download.DistinctSongsShareFilename`).

## Model

| member | source | states |
|---|---|---|
| Dedup.Dedupe | script.py:449-455 | the unique songs are no more than the input, have pairwise distinct identifiers and exactly the input's set of identifiers, and each is the first record of the input with its identifier |
| Dedup.DedupeIsSubsequence | script.py:449-455 | the unique songs keep their input order (a subsequence of the input) |
| Dedup.DedupeIsFirstRecords | script.py:449-455 | the unique songs are exactly the input's records at the positions where an identifier is seen for the first time, in input order: none dropped, none added, none reordered |
| Dedup.FirstRecordsOfPrefix | script.py:449-455 | whether a position is the first of its identifier depends only on the records before it, so a prefix agrees with the whole list on its positions |
| Dedup.FirstRecordsStep | script.py:451-455 | one pass of the loop appends the record exactly when it is a first occurrence, extending the first-occurrence records by one position |
| Dedup.LastIsFirstOfKey | script.py:451-454 | the last record's identifier is missing from the records before it exactly when the last record is the first with that identifier (the `seen` test) |
| Dedup.RemoveDuplicates | script.py:449-455 | the loop with its `seen` set computes exactly the unique songs, with distinct identifiers and the input's identifiers |
| Dedup.DedupeAppendNew | script.py:453-455 | a record whose identifier was not seen before is appended |
| Dedup.DedupeDistinct | script.py:449-455 | a list whose identifiers are already distinct is returned unchanged |
| Dedup.DedupeIdempotent | script.py:449-455 | deduplicating twice equals deduplicating once |
| Dedup.DedupeKeepsEachKeyOnce | script.py:449-455 | every identifier of the input occurs in exactly one unique song |
| Dedup.SameNameKeyDiffersByArtist | script.py:452 | for equal names the identifiers are equal exactly when the artists are |
| Dedup.DifferentArtistsBothKept | script.py:449-455 | two versions of a song by different artists are both kept, in order |
| Dedup.KeyFirstBar | script.py:452 | without a bar character in the name, the first bar of the identifier sits right after the name |
| Dedup.KeyInjectiveWithoutBar | script.py:452 | without a bar character in the names, equal identifiers mean equal name and artist |
| Dedup.BarInNameCollides | script.py:452-455 | two different (name, artist) pairs with a bar character share an identifier and the second is dropped |
| Dedup.ThreeRecordsTwoUnique | script.py:449-455 | `[A/1, B/2, A/1]` deduplicates to `[A/1, B/2]` |
| Download.KeepAllowed | script.py:65-66 | the filter keeps only alphanumerics, space, `-` and `_`, in their original order, never lengthening |
| Download.KeepAllowedConcat | script.py:65-66 | filtering a concatenation is concatenating the filtered parts |
| Download.KeepAllowedIdentity | script.py:65-66 | a string of allowed characters passes unchanged |
| Download.KeepAllowedDropsDisallowed | script.py:65-66 | a character that is not allowed never appears in the result |
| Download.SafeFilename | script.py:65-66 | the file name has only allowed characters, no surrounding whitespace, and is a subsequence of `artist - track` |
| Download.SafeFilenameNonEmpty | script.py:65-66 | the file name is never empty: the separator's hyphen is allowed and `strip()` removes only whitespace |
| Download.StripIsSubsequence | script.py:66 | stripping keeps a subsequence of the string |
| Download.SafeFilenameStable | script.py:65-66 | sanitising a sanitised name again changes nothing |
| Download.PlainNamesKept | script.py:65-66 | names of allowed characters without outer whitespace give exactly `artist - track` |
| Download.EmptyNames | script.py:65-66 | empty artist and track give the name `-` |
| Download.SlashDropped | script.py:65-66 | a `/` is dropped by the filter, so `a/b - c` filters like `ab - c` |
| Download.DistinctSongsShareFilename | script.py:65-66 | the songs `a/b`–`c` and `ab`–`c` get the same file name `ab - c` |
| Download.DownloadAudio | script.py:61-86 | folder creation failure escapes as an exception, a tool failure gives `None`, otherwise the path is the sanitised name with the format's extension in the folder |
| Download.SavedPathIgnoresUrl | script.py:76-84 | the saved path depends on the names only, not on the video |
| Listing.SplitTitle | script.py:253-259 | with `" - "` in the title, the parts rejoin to the title at its first occurrence and the artist has no `" - "`; otherwise the song is the title and the artist the uploader, `"Unknown Artist"` when missing, and no split when the uploader is `None` |
| Listing.ParseEntry | script.py:250-270 | an entry is skipped exactly when it is `None`, its title is `None`, or it has no `" - "` and a `None` uploader; otherwise its record has the stripped parts, album `"Unknown Album"`, source YouTube Music and the entry's id |
| Listing.ParseEntries | script.py:249-270 | at most one record per entry, each from YouTube Music with album `"Unknown Album"` and stripped names |
| Listing.ListingSongs | script.py:241-277 | a listing that could not be fetched gives no records |
| Listing.ParseEntriesSingle | script.py:250-270 | a single entry gives its own parsed record when it parses and no record otherwise |
| Listing.ParseEntriesConcat | script.py:250-270 | the records of two listings back to back are the records of each |
| Listing.NothingSkipped | script.py:250-270 | when no entry is skipped there is one record per entry, in order |
| Listing.MissingUploaderIsUnknownArtist | script.py:253-259 | a title without `" - "` and no uploader key gives artist `"Unknown Artist"` |
| Cookies.ParsePair | script.py:225-226 | a piece yields a cookie exactly when it contains `=`; the name has no `=` and `name=value` is the piece |
| Cookies.CookiesOf | script.py:224-227 | the cookies' `name=value` texts are a subsequence of the pieces, and no name contains `=` |
| Cookies.CookiesOfHeader | script.py:224-227 | the same for the pieces of the header split on `"; "` |
| Cookies.CookieFileLines | script.py:223-227 | the Netscape header line, then one cookie line per cookie, in order |
| Cookies.SplitAtFirstEquals | script.py:226 | only the first `=` separates name from value, so a value may contain `=` |
| Cookies.CookiesOfJoinedHeader | script.py:224-227 | the header `a; rest` gives the cookie of `a` (if any) followed by the cookies of `rest` |
| Cookies.CookiesRoundTrip | script.py:224-226 | when every piece contains `=`, the cookies' texts are exactly the pieces |
| Cookies.HeaderRoundTrip | script.py:224-226 | then rejoining them with `"; "` gives back the header |
| Cookies.CookieLineIsJoin | script.py:227 | a cookie line is the seven Netscape fields joined by tabs, then a newline |
| Cookies.CookieLineFields | script.py:227 | when the name and value contain no tab, splitting a cookie line on tabs gives back the seven fields, including name and value (a tab inside them would add a field) |
| Resolution.SearchQuery | script.py:90-101 | the query is `ytsearch1:` followed by the track, a space and the artist, position by position; a track name without spaces is recovered, with the artist, by splitting after the prefix at the first space |
| Resolution.FirstUsableEntry | script.py:103-121 | an entry is used only when the listing has one, the first is not `None` and it has an `'id'`; it is then that first entry, and every other case yields nothing (the exception is swallowed) |
| Resolution.SearchForSong | script.py:88-123 | the search never raises; it finds a video exactly when the first entry is usable and the download does not raise; the video's id, url and title come from that entry, with `download_path` absent, `None` or the saved path |
| Resolution.ProcessSong | script.py:331-375 | the outcome is about its own song and succeeds exactly for "Downloaded"/"Found"; the direct path uses the record's own video (with no `download_path` when not downloading) and succeeds iff not downloading or the download saves a non-empty path, reading "Error" when the download raises, "Downloaded" when it saves a non-empty path and "Download failed" otherwise; the search path succeeds iff the search finds a video, "Not found" iff it finds none, "Error" iff it raises |
| Resolution.DirectPathIgnoresSearch | script.py:337-357 | with a video id the search backend is never consulted |
| Resolution.ResolveOnlyNeedsNoBackend | script.py:337-357 | with a video id and no download the song is found without any backend |
| Resolution.EmptyVideoIdSearches | script.py:337 | an empty video id falls through to the search |
| Resolution.SearchPathIgnoresFetch | script.py:358-373 | on the search path the downloader given to `process_song` is not used |
| Resolution.FoundWithoutFileStillSucceeds | script.py:367-371 | in download mode a hit without a file still succeeds, as "Found" |
| Resolution.RealSearchNeverErrors | script.py:88-123 | with the real search behind it, the search path never reports "Error" |
| Resolution.FolderFailureReadsAsNotFound | script.py:112-123 | a download that raises inside the search turns the song into "Not found" |
| Resolution.Render | script.py:353-375 | the printed line starts with `[` and contains the status word and `name - artist` |
| Resolution.NotFoundScenario | script.py:358-373 | a Spotify song the search misses fails with a line containing "Not found" |
| Resolution.VideoIdScenario | script.py:337-353 | a YouTube Music song with id `abc123` and a successful download succeeds with that id |
| Report.CountSuccesses | script.py:478-483 | the success count never exceeds the number of outcomes |
| Report.CountIsFlagMultiplicity | script.py:478-483 | the count is the number of `true` success flags |
| Report.CountExtremes | script.py:478-483 | a count of 0 means every task failed, a full count means every task succeeded |
| Report.CountUpdate | script.py:478-483 | replacing one outcome changes the count by that outcome's flag only |
| Report.CountConcat | script.py:478-483 | counts of consecutive outcomes add up |
| Report.Collect | script.py:478-483 | one result per finished task, in finishing order, and the number of successes |
| Report.Summarise | script.py:490-494 | failed is total minus successful, never negative |
| Report.CollectOrderIndependent | script.py:478-483 | any two completion orders give the same count and the same results up to order |
| Pipeline.Submit | script.py:473-476 | one task per unique song: task `i` processes `unique[i]`, is numbered `i + 1` and is told the number of unique songs |
| Pipeline.ProcessAll | script.py:449-494 | nothing runs exactly when more than 1000 unique songs are not confirmed; otherwise the results are the completed tasks' results in completion order, one per unique song, each unique song exactly once, successes counted independently of completion order, failed = total − successful ≥ 0 |
| Pipeline.ResultsCoverUniqueSongs | script.py:473-481 | the results hold every unique song exactly once, whatever the completion order |
| Pipeline.EachTaskReportedOnce | script.py:473-481 | every number `1..total` is reported by exactly one completed task and no other number is |
| Pipeline.PartialFailures | test_script.py:196-201 | a search hit for the first song and a miss for the second give one success, one "Not found", and a count of one in any completion order |
| Pipeline.FailureIsolation | script.py:374-375 | when the services of one task raise, every other outcome is unchanged, that task fails with "Error" unless it needs no service, and the count drops by at most one |
| Pipeline.ConfirmationGate | script.py:459-463 | up to 1000 songs run without asking; beyond that only `y` or `Y` continues |
| Text.Strip | script.py:66 | the result has no outer whitespace and is the input with whitespace removed only at its ends |
| Text.StripTrimmed | script.py:66 | a string without outer whitespace is unchanged by stripping |
| Text.StripSurrounded | script.py:66 | stripping whitespace around a trimmed core gives the core |
| Text.Find | script.py:255 | a position is found exactly when the pattern occurs, and it is the first occurrence |
| Text.SplitFirst | script.py:256 | `split(sep, 1)` returns the parts around the first occurrence, rejoining to the input |
| Text.FirstSeparatorAfterPiece | script.py:256 | for a separator without self-overlap, splitting `a + sep + b` with no sep in `a` gives `a` and `b` |
| Text.Split | script.py:224 | the pieces rejoin to the input and none contains the separator |
| Text.SplitJoin | script.py:224 | splitting a non-empty list of pieces, joined by a self-overlap-free separator they do not contain, gives them back (an empty list joins to `""`, which splits to `[""]`) |
| Text.NatToDecimal | script.py:353 | the digits of a number, without leading zero |
| Text.DecimalRoundTrip | script.py:353 | reading the printed digits back gives the number |
| Text.IntToDecimal | script.py:353 | `f"{i}"` for an integer: non-empty, with a leading `-` exactly when the number is negative, followed by decimal digits that read back as its magnitude |
| Sequences.MapSeqPermutation | script.py:478-483 | reordering the outcomes reorders their mapped values the same way |

## Left out

- Spotify and YouTube catalog access is not part of this model: `init_spotify`, the Spotify liked-song and playlist paging, and the listing and download calls of the audio tool. Listings and service replies are parameters.
- The cookie prompt, the cookie and report files, printing and `json.dump` are I/O. The model produces the values written (`Cookies.CookieFileLines`, `Pipeline.ProcessAll`) but not the files.
- The thread pool and its worker bound `MAX_CONCURRENT_DOWNLOADS` are not modelled as threads. Each task gets its own `Backends`, and the finishing order is any reordering of the submitted outcomes.
- The interactive menu, the playlist-number parsing and the environment settings are left out as user interface and configuration. The folder and audio format are the parameter `AudioConfig`.
- `parse_spotify_url`, `parse_youtube_url` and `process_playlists_file` are not defined in `script.py`, so they are not part of this model.
- Download.DownloadAudio: the tool's options, the audio quality and the file it actually writes are not modelled. Only the returned path is.
- Download.KeepAllowed: which characters `str.isalnum` accepts is the parameter `isAlnum`, because the Unicode tables are not modelled.
- Listing.ParseEntry: `None` stands for any entry that is falsy, including an empty dictionary. An `Entry` stands for a non-empty one.
- Resolution.Render: the contract states that the line contains the status word and `name - artist`, not the whole line. The exact layout `[index/total] mark word: name - artist` is the function's body.
- Resolution.SearchForSong: an entry's title and id are taken to be strings or `None`. Other Python values in those keys are not modelled.

=== FILE: cookies.dfy ===
/**
 * Writing a browser cookie header as a Netscape cookie file (`get_ytmusic_liked_songs`,
 * script.py lines 222-227; repeated in `get_ytmusic_playlist_songs`, lines 283-288).
 *
 * The header is split on "; "; every piece that contains "=" is split at its first
 * "=" into a name and a value and becomes one tab-separated line for `.youtube.com`.
 * Pieces without "=" are skipped.
 */
module Cookies {
  import opened Options
  import opened Text
  import opened Sequences

  const Header: string := "# Netscape HTTP Cookie File\n"
  const PairSeparator: string := "; "

  datatype Cookie = Cookie(name: string, value: string)

  /** The `name=value` text a cookie came from. */
  function PairText(c: Cookie): string {
    c.name + "=" + c.value
  }

  /** One cookie-file line: domain, subdomains, path, secure, expiry, name, value. */
  function CookieLine(c: Cookie): string {
    ".youtube.com" + "\t" + "TRUE" + "\t" + "/" + "\t" + "TRUE" + "\t" + "0" + "\t" + c.name + "\t" + c.value + "\n"
  }

  /** A piece `name=value` split at its first "=", or `None` when it has no "=". */
  function ParsePair(piece: string): (r: Option<Cookie>)
    ensures r.Some? <==> Contains(piece, "=")
    ensures r.Some? ==> PairText(r.value) == piece && !Contains(r.value.name, "=")
  {
    if Contains(piece, "=") then
      var (name, value) := SplitFirst(piece, "=");
      Some(Cookie(name, value))
    else None
  }

  /** The cookies of a sequence of pieces, in order, skipping pieces without "=". */
  function CookiesOf(pieces: seq<string>): (cookies: seq<Cookie>)
    ensures |cookies| <= |pieces|
    ensures forall k :: 0 <= k < |cookies| ==> !Contains(cookies[k].name, "=")
    ensures IsSubsequence(MapSeq(PairText, cookies), pieces)
  {
    if |pieces| == 0 then []
    else
      var rest := CookiesOf(pieces[1..]);
      match ParsePair(pieces[0])
      case Some(c) =>
        assert MapSeq(PairText, [c] + rest) == [pieces[0]] + MapSeq(PairText, rest);
        [c] + rest
      case None => rest
  }

  /** The cookies of a header. */
  function CookiesOfHeader(header: string): (cookies: seq<Cookie>)
    ensures |cookies| <= |Split(header, PairSeparator)|
    ensures forall k :: 0 <= k < |cookies| ==> !Contains(cookies[k].name, "=")
    ensures IsSubsequence(MapSeq(PairText, cookies), Split(header, PairSeparator))
  {
    CookiesOf(Split(header, PairSeparator))
  }

  /** The lines written to the cookie file: the Netscape header line, then one line per cookie. */
  function CookieFileLines(header: string): (lines: seq<string>)
    ensures |lines| == 1 + |CookiesOfHeader(header)|
    ensures lines[0] == Header
    ensures forall k :: 1 <= k < |lines| ==> lines[k] == CookieLine(CookiesOfHeader(header)[k - 1])
  {
    [Header] + MapSeq(CookieLine, CookiesOfHeader(header))
  }

  /** A value may itself contain "=": only the first "=" separates name from value. */
  lemma SplitAtFirstEquals(name: string, value: string)
    requires !Contains(name, "=")
    ensures ParsePair(name + "=" + value) == Some(Cookie(name, value))
  {
    FirstSeparatorAfterPiece(name, "=", value);
  }

  /** Cookies are read piece by piece: the header `a; rest` gives the cookies of `a`, then of `rest`. */
  lemma CookiesOfJoinedHeader(a: string, rest: string)
    requires !Contains(a, PairSeparator)
    ensures CookiesOfHeader(a + PairSeparator + rest) ==
            (if Contains(a, "=") then [ParsePair(a).value] else []) + CookiesOfHeader(rest)
  {
    assert PairSeparator[1..] == " " && PairSeparator[..1] == ";";
    assert Borderless(PairSeparator);
    FirstSeparatorAfterPiece(a, PairSeparator, rest);
  }

  /** When every piece has a name, rejoining the cookies gives back the header. */
  lemma {:induction false} CookiesRoundTrip(pieces: seq<string>)
    requires |pieces| > 0
    requires forall k :: 0 <= k < |pieces| ==> Contains(pieces[k], "=")
    ensures MapSeq(PairText, CookiesOf(pieces)) == pieces
    decreases |pieces|
  {
    if |pieces| > 1 {
      CookiesRoundTrip(pieces[1..]);
    }
  }

  lemma HeaderRoundTrip(header: string)
    requires forall k :: 0 <= k < |Split(header, PairSeparator)| ==> Contains(Split(header, PairSeparator)[k], "=")
    ensures Join(MapSeq(PairText, CookiesOfHeader(header)), PairSeparator) == header
  {
    CookiesRoundTrip(Split(header, PairSeparator));
  }

  /** The seven Netscape fields of a cookie: domain, subdomains, path, secure, expiry, name, value. */
  function CookieFields(c: Cookie): seq<string> {
    [".youtube.com", "TRUE", "/", "TRUE", "0", c.name, c.value]
  }

  lemma CookieLineIsJoin(c: Cookie)
    ensures CookieLine(c) == Join(CookieFields(c), "\t") + "\n"
  {
    var tab := "\t";
    var f := CookieFields(c);
    JoinSnoc(f[..1], f[1], tab);
    JoinSnoc(f[..2], f[2], tab);
    JoinSnoc(f[..3], f[3], tab);
    JoinSnoc(f[..4], f[4], tab);
    JoinSnoc(f[..5], f[5], tab);
    JoinSnoc(f[..6], f[6], tab);
    assert f[..1] + [f[1]] == f[..2];
    assert f[..2] + [f[2]] == f[..3];
    assert f[..3] + [f[3]] == f[..4];
    assert f[..4] + [f[4]] == f[..5];
    assert f[..5] + [f[5]] == f[..6];
    assert f[..6] + [f[6]] == f;
  }

  /** Each cookie line holds the seven tab-separated Netscape fields, ending in a newline. */
  lemma CookieLineFields(c: Cookie)
    requires !Contains(c.name, "\t") && !Contains(c.value, "\t")
    ensures var line := CookieLine(c);
            && line[|line| - 1] == '\n'
            && Split(line[..|line| - 1], "\t") == CookieFields(c)
  {
    var fields := CookieFields(c);
    var line := CookieLine(c);
    CookieLineIsJoin(c);
    assert line[..|line| - 1] == Join(fields, "\t");
    forall k | 0 <= k < |fields|
      ensures !Contains(fields[k], "\t")
    {
      ContainsChar(fields[k], '\t');
    }
    SplitJoin(fields, "\t");
  }
}

=== FILE: dedup.dfy ===
/**
 * Removal of duplicate songs before processing (`main`, script.py lines 448-455):
 * first occurrence wins, order is kept, and two records are duplicates when their
 * identifier strings `name + "|" + artist` are equal.
 */
module Dedup {
  import opened Records
  import opened Sequences
  import opened Text

  /** The identifier a record is deduplicated by: one string, not a (name, artist) pair. */
  function Key(t: Track): string {
    t.name + "|" + t.artist
  }

  function KeySet(ts: seq<Track>): set<string> {
    set t | t in ts :: Key(t)
  }

  predicate DistinctKeys(ts: seq<Track>) {
    forall i, j :: 0 <= i < j < |ts| ==> Key(ts[i]) != Key(ts[j])
  }

  /** `ts[i]` is the first record of `ts` with its identifier. */
  ghost predicate IsFirstOfKey(ts: seq<Track>, i: int) {
    0 <= i < |ts| && forall h :: 0 <= h < i ==> Key(ts[h]) != Key(ts[i])
  }

  /** `x` occurs in `ts` at a position where its identifier is seen for the first time. */
  ghost predicate FirstOfItsKey(ts: seq<Track>, x: Track) {
    exists i :: IsFirstOfKey(ts, i) && ts[i] == x
  }

  /** Every record of `unique` is the first record of `ts` with its identifier. */
  ghost predicate OnlyFirstOccurrences(unique: seq<Track>, ts: seq<Track>) {
    forall x :: x in unique ==> FirstOfItsKey(ts, x)
  }

  lemma KeySetAppend(ts: seq<Track>, t: Track)
    ensures KeySet(ts + [t]) == KeySet(ts) + {Key(t)}
  {
    assert forall u :: u in ts + [t] <==> u in ts || u == t;
  }

  /**
   * The unique songs, in first-seen order. `KeySet(kept)` plays the role of the
   * loop's `seen` set: it holds exactly the identifiers kept so far.
   */
  function Dedupe(ts: seq<Track>): (unique: seq<Track>)
    ensures |unique| <= |ts|
    ensures DistinctKeys(unique)
    ensures KeySet(unique) == KeySet(ts)
    ensures OnlyFirstOccurrences(unique, ts)
    decreases |ts|
  {
    if |ts| == 0 then []
    else
      var kept := Dedupe(ts[..|ts| - 1]);
      DedupeStep(ts, kept);
      if Key(ts[|ts| - 1]) in KeySet(kept) then kept else kept + [ts[|ts| - 1]]
  }

  /** One iteration of the loop keeps the properties `Dedupe` promises. */
  lemma DedupeStep(ts: seq<Track>, kept: seq<Track>)
    requires |ts| > 0
    requires |kept| <= |ts| - 1
    requires DistinctKeys(kept)
    requires KeySet(kept) == KeySet(ts[..|ts| - 1])
    requires OnlyFirstOccurrences(kept, ts[..|ts| - 1])
    ensures var next := if Key(ts[|ts| - 1]) in KeySet(kept) then kept else kept + [ts[|ts| - 1]];
            && |next| <= |ts|
            && DistinctKeys(next)
            && KeySet(next) == KeySet(ts)
            && OnlyFirstOccurrences(next, ts)
  {
    var prefix := ts[..|ts| - 1];
    var t := ts[|ts| - 1];
    assert ts == prefix + [t];
    KeySetAppend(prefix, t);
    FirstOccurrencesExtend(ts, kept);
    if Key(t) !in KeySet(kept) {
      KeySetAppend(kept, t);
      forall h | 0 <= h < |ts| - 1
        ensures Key(ts[h]) != Key(t)
      {
        assert ts[h] in prefix;
      }
      FirstOccurrencesAppend(ts, kept);
    }
  }

  /** A record that was first in a prefix is still first in the whole list. */
  lemma FirstOccurrencesExtend(ts: seq<Track>, kept: seq<Track>)
    requires |ts| > 0
    requires OnlyFirstOccurrences(kept, ts[..|ts| - 1])
    ensures OnlyFirstOccurrences(kept, ts)
  {
    var prefix := ts[..|ts| - 1];
    forall x | x in kept
      ensures FirstOfItsKey(ts, x)
    {
      var i :| IsFirstOfKey(prefix, i) && prefix[i] == x;
      assert IsFirstOfKey(ts, i);
    }
  }

  lemma FirstOccurrencesAppend(ts: seq<Track>, kept: seq<Track>)
    requires |ts| > 0
    requires OnlyFirstOccurrences(kept, ts)
    requires IsFirstOfKey(ts, |ts| - 1)
    ensures OnlyFirstOccurrences(kept + [ts[|ts| - 1]], ts)
  {
    forall x | x in kept + [ts[|ts| - 1]]
      ensures FirstOfItsKey(ts, x)
    {
      if x !in kept {
        assert IsFirstOfKey(ts, |ts| - 1);
      }
    }
  }

  lemma DedupeUnfold(ts: seq<Track>)
    requires |ts| > 0
    ensures var kept := Dedupe(ts[..|ts| - 1]);
            Dedupe(ts) == if Key(ts[|ts| - 1]) in KeySet(kept) then kept else kept + [ts[|ts| - 1]]
  {
  }

  lemma SubsequenceStep(next: seq<Track>, kept: seq<Track>, ts: seq<Track>)
    requires |ts| > 0
    requires IsSubsequence(kept, ts[..|ts| - 1])
    requires next == kept || next == kept + [ts[|ts| - 1]]
    ensures IsSubsequence(next, ts)
  {
    SubsequenceAppend(kept, ts[..|ts| - 1], ts[|ts| - 1]);
    assert ts[..|ts| - 1] + [ts[|ts| - 1]] == ts;
  }

  /** The unique songs keep the relative order they had in the input. */
  lemma {:induction false} DedupeIsSubsequence(ts: seq<Track>)
    ensures IsSubsequence(Dedupe(ts), ts)
    decreases |ts|
  {
    if |ts| > 0 {
      DedupeIsSubsequence(ts[..|ts| - 1]);
      DedupeUnfold(ts);
      SubsequenceStep(Dedupe(ts), Dedupe(ts[..|ts| - 1]), ts);
    }
  }

  /**
   * Reference definition of the unique songs, by position: the records of `ts[..n]`
   * standing where their identifier is seen for the first time, in input order.
   */
  ghost function FirstRecords(ts: seq<Track>, n: nat): seq<Track>
    requires n <= |ts|
    decreases n
  {
    if n == 0 then []
    else FirstRecords(ts, n - 1) + (if IsFirstOfKey(ts, n - 1) then [ts[n - 1]] else [])
  }

  /** Whether a position is first for its identifier depends only on the records before it. */
  lemma {:induction false} FirstRecordsOfPrefix(ts: seq<Track>, m: nat, n: nat)
    requires n <= m <= |ts|
    ensures FirstRecords(ts[..m], n) == FirstRecords(ts, n)
    decreases n
  {
    if n > 0 {
      FirstRecordsOfPrefix(ts, m, n - 1);
      assert IsFirstOfKey(ts[..m], n - 1) <==> IsFirstOfKey(ts, n - 1) by {
        assert forall h :: 0 <= h < n ==> ts[..m][h] == ts[h];
      }
    }
  }

  /** The last record brings a new identifier exactly when it is the first with that identifier. */
  lemma LastIsFirstOfKey(ts: seq<Track>)
    requires |ts| > 0
    ensures Key(ts[|ts| - 1]) !in KeySet(ts[..|ts| - 1]) <==> IsFirstOfKey(ts, |ts| - 1)
  {
    var prefix := ts[..|ts| - 1];
    var t := ts[|ts| - 1];
    if Key(t) in KeySet(prefix) {
      var u :| u in prefix && Key(u) == Key(t);
      var h :| 0 <= h < |prefix| && prefix[h] == u;
      assert Key(ts[h]) == Key(t);
    }
    if !IsFirstOfKey(ts, |ts| - 1) {
      var h :| 0 <= h < |ts| - 1 && Key(ts[h]) == Key(t);
      assert ts[h] in prefix;
    }
  }

  /**
   * The unique songs are exactly the records at first-occurrence positions, in input
   * order: nothing else is kept, none of them is dropped, and none is moved.
   */
  lemma {:induction false} DedupeIsFirstRecords(ts: seq<Track>)
    ensures Dedupe(ts) == FirstRecords(ts, |ts|)
    decreases |ts|
  {
    if |ts| > 0 {
      DedupeIsFirstRecords(ts[..|ts| - 1]);
      DedupeUnfold(ts);
      FirstRecordsStep(ts, Dedupe(ts[..|ts| - 1]), Dedupe(ts));
    }
  }

  /** One step of the loop adds the last record exactly when it is a first occurrence. */
  lemma FirstRecordsStep(ts: seq<Track>, kept: seq<Track>, next: seq<Track>)
    requires |ts| > 0
    requires kept == FirstRecords(ts[..|ts| - 1], |ts[..|ts| - 1]|)
    requires KeySet(kept) == KeySet(ts[..|ts| - 1])
    requires next == if Key(ts[|ts| - 1]) in KeySet(kept) then kept else kept + [ts[|ts| - 1]]
    ensures next == FirstRecords(ts, |ts|)
  {
    var n := |ts| - 1;
    assert |ts[..n]| == n;
    FirstRecordsOfPrefix(ts, n, n);
    assert FirstRecords(ts, n + 1) == FirstRecords(ts, n) + (if IsFirstOfKey(ts, n) then [ts[n]] else []);
    LastIsFirstOfKey(ts);
  }

  /** A record with a new identifier is appended. */
  lemma DedupeAppendNew(ts: seq<Track>)
    requires |ts| > 0 && Key(ts[|ts| - 1]) !in KeySet(ts[..|ts| - 1])
    ensures Dedupe(ts) == Dedupe(ts[..|ts| - 1]) + [ts[|ts| - 1]]
  {
    DedupeUnfold(ts);
  }

  /** The loop of `main` with its `seen` set computes `Dedupe`. */
  method RemoveDuplicates(allSongs: seq<Track>) returns (unique: seq<Track>)
    ensures unique == Dedupe(allSongs)
    ensures DistinctKeys(unique) && KeySet(unique) == KeySet(allSongs)
  {
    unique := [];
    var seen: set<string> := {};
    for i := 0 to |allSongs|
      invariant unique == Dedupe(allSongs[..i])
      invariant seen == KeySet(unique)
    {
      var song := allSongs[i];
      assert allSongs[..i + 1][..i] == allSongs[..i];
      var identifier := Key(song);
      if identifier !in seen {
        seen := seen + {identifier};
        KeySetAppend(unique, song);
        unique := unique + [song];
      }
    }
    assert allSongs[..|allSongs|] == allSongs;
  }

  lemma LastKeyIsNew(ts: seq<Track>)
    requires |ts| > 0 && DistinctKeys(ts)
    ensures Key(ts[|ts| - 1]) !in KeySet(ts[..|ts| - 1])
  {
    var prefix := ts[..|ts| - 1];
    forall u | u in prefix
      ensures Key(u) != Key(ts[|ts| - 1])
    {
      var i :| 0 <= i < |prefix| && prefix[i] == u;
      assert Key(ts[i]) != Key(ts[|ts| - 1]);
    }
  }

  /** A list whose identifiers are already distinct is left exactly as it is. */
  lemma {:induction false} DedupeDistinct(ts: seq<Track>)
    requires DistinctKeys(ts)
    ensures Dedupe(ts) == ts
    decreases |ts|
  {
    if |ts| > 0 {
      var prefix := ts[..|ts| - 1];
      var t := ts[|ts| - 1];
      assert DistinctKeys(prefix);
      DedupeDistinct(prefix);
      LastKeyIsNew(ts);
      DedupeAppendNew(ts);
      calc {
        Dedupe(ts);
        Dedupe(prefix) + [t];
        prefix + [t];
        ts;
      }
    }
  }

  /** Deduplicating twice is the same as deduplicating once. */
  lemma DedupeIdempotent(ts: seq<Track>)
    ensures Dedupe(Dedupe(ts)) == Dedupe(ts)
  {
    DedupeDistinct(Dedupe(ts));
  }

  /** Every identifier of the input is kept exactly once. */
  lemma DedupeKeepsEachKeyOnce(ts: seq<Track>, k: string)
    requires k in KeySet(ts)
    ensures exists j :: 0 <= j < |Dedupe(ts)| && Key(Dedupe(ts)[j]) == k
    ensures forall j, j' :: 0 <= j < |Dedupe(ts)| && 0 <= j' < |Dedupe(ts)| && Key(Dedupe(ts)[j]) == k && Key(Dedupe(ts)[j']) == k ==> j == j'
  {
    var unique := Dedupe(ts);
    assert k in KeySet(unique);
    var t :| t in unique && Key(t) == k;
  }

  /** Identifiers built from the same name differ exactly when the artists differ. */
  lemma SameNameKeyDiffersByArtist(t1: Track, t2: Track)
    requires t1.name == t2.name
    ensures Key(t1) == Key(t2) <==> t1.artist == t2.artist
  {
    if Key(t1) == Key(t2) {
      assert t1.artist == Key(t1)[|t1.name| + 1..];
    }
  }

  /** Two versions of a song by different artists are both kept. */
  lemma DifferentArtistsBothKept(t1: Track, t2: Track)
    requires t1.name == t2.name && t1.artist != t2.artist
    ensures Dedupe([t1, t2]) == [t1, t2]
  {
    SameNameKeyDiffersByArtist(t1, t2);
    DedupeDistinct([t1, t2]);
  }

  /** Without a `|` in the name, the first `|` of the identifier is the one after the name. */
  lemma KeyFirstBar(t: Track)
    requires '|' !in t.name
    ensures Find(Key(t), "|") == Options.Some(|t.name|)
  {
    var k := Key(t);
    assert OccursAt(k, "|", |t.name|);
    forall j | 0 <= j < |t.name|
      ensures !OccursAt(k, "|", j)
    {
      assert k[j] == t.name[j];
    }
  }

  /** Without a `|` in the names, equal identifiers mean equal names and artists. */
  lemma KeyInjectiveWithoutBar(t1: Track, t2: Track)
    requires '|' !in t1.name && '|' !in t2.name
    requires Key(t1) == Key(t2)
    ensures t1.name == t2.name && t1.artist == t2.artist
  {
    var k := Key(t1);
    KeyFirstBar(t1);
    KeyFirstBar(t2);
    assert |t1.name| == |t2.name|;
    assert t1.name == k[..|t1.name|] == t2.name;
    assert t1.artist == k[|t1.name| + 1..] == t2.artist;
  }

  /** With a `|` inside a name, two different (name, artist) pairs collide and the second is dropped. */
  lemma BarInNameCollides()
    ensures var t1 := Track("a|b", "c", "", Spotify, Absent);
            var t2 := Track("a", "b|c", "", Spotify, Absent);
            t1 != t2 && Key(t1) == Key(t2) && Dedupe([t1, t2]) == [t1]
  {
    var t1 := Track("a|b", "c", "", Spotify, Absent);
    var t2 := Track("a", "b|c", "", Spotify, Absent);
    assert Key(t1) == "a|b|c" == Key(t2);
    assert [t1, t2][..1] == [t1];
  }

  /** Three records, two of them equal: two unique songs remain. */
  lemma ThreeRecordsTwoUnique()
    ensures var a1 := Track("A", "1", "", Spotify, Absent);
            var b2 := Track("B", "2", "", Spotify, Absent);
            Dedupe([a1, b2, a1]) == [a1, b2]
  {
    var a1 := Track("A", "1", "", Spotify, Absent);
    var b2 := Track("B", "2", "", Spotify, Absent);
    assert Key(a1) == "A|1" && Key(b2) == "B|2";
    assert Key(a1) != Key(b2) by { assert Key(a1)[0] != Key(b2)[0]; }
    assert [a1, b2, a1][..2] == [a1, b2];
    assert [a1, b2][..1] == [a1];
  }
}

=== FILE: download.dfy ===
/**
 * Downloading one video's audio (`download_youtube_audio`, script.py lines 61-86).
 *
 * The file is named after the characters of `artist + " - " + track` that are
 * alphanumeric, a space, `-` or `_`, with surrounding whitespace stripped.
 * Python's `str.isalnum` is Unicode-aware, so which characters count as
 * alphanumeric is the parameter `isAlnum`. The audio tool itself is not modelled:
 * whether creating the folder raises and whether the tool raises are parameters.
 */
module Download {
  import opened Text
  import opened Sequences

  /** A character that survives sanitisation. */
  predicate Allowed(isAlnum: char -> bool, c: char) {
    isAlnum(c) || c == ' ' || c == '-' || c == '_'
  }

  /** The characters of `s` that are alphanumeric, a space, a hyphen or an underscore, in their original order. */
  function KeepAllowed(isAlnum: char -> bool, s: string): (r: string)
    ensures |r| <= |s|
    ensures forall k :: 0 <= k < |r| ==> Allowed(isAlnum, r[k])
    ensures IsSubsequence(r, s)
  {
    if |s| == 0 then ""
    else if Allowed(isAlnum, s[0]) then [s[0]] + KeepAllowed(isAlnum, s[1..])
    else KeepAllowed(isAlnum, s[1..])
  }

  /** Filtering works piece by piece: the filter of a concatenation is the concatenation of the filters. */
  lemma {:induction false} KeepAllowedConcat(isAlnum: char -> bool, a: string, b: string)
    ensures KeepAllowed(isAlnum, a + b) == KeepAllowed(isAlnum, a) + KeepAllowed(isAlnum, b)
    decreases |a|
  {
    if |a| > 0 {
      assert (a + b)[1..] == a[1..] + b;
      KeepAllowedConcat(isAlnum, a[1..], b);
    } else {
      assert a + b == b;
    }
  }

  /** A string made only of allowed characters passes the filter unchanged. */
  lemma {:induction false} KeepAllowedIdentity(isAlnum: char -> bool, s: string)
    requires forall k :: 0 <= k < |s| ==> Allowed(isAlnum, s[k])
    ensures KeepAllowed(isAlnum, s) == s
    decreases |s|
  {
    if |s| > 0 {
      KeepAllowedIdentity(isAlnum, s[1..]);
    }
  }

  /** A character that is not allowed never reaches the file name. */
  lemma KeepAllowedDropsDisallowed(isAlnum: char -> bool, s: string, c: char)
    requires !Allowed(isAlnum, c)
    ensures c !in KeepAllowed(isAlnum, s)
  {
  }

  /** The name of the downloaded file, without folder or extension (`safe_filename`). */
  function SafeFilename(isAlnum: char -> bool, artist: string, track: string): (name: string)
    ensures forall k :: 0 <= k < |name| ==> Allowed(isAlnum, name[k])
    ensures Trimmed(name)
    ensures IsSubsequence(name, artist + " - " + track)
  {
    var kept := KeepAllowed(isAlnum, artist + " - " + track);
    StripIsSubsequence(kept);
    SubsequenceTransitive(Strip(kept), kept, artist + " - " + track);
    Strip(kept)
  }

  lemma StripIsSubsequence(s: string)
    ensures IsSubsequence(Strip(s), s)
  {
    var r := Strip(s);
    var i :| StrippedAt(s, r, i);
    InfixIsSubsequence(s, i, i + |r|);
  }

  /** Sanitising a sanitised name again changes nothing. */
  lemma SafeFilenameStable(isAlnum: char -> bool, artist: string, track: string)
    ensures var name := SafeFilename(isAlnum, artist, track);
            Strip(KeepAllowed(isAlnum, name)) == name
  {
    var name := SafeFilename(isAlnum, artist, track);
    KeepAllowedIdentity(isAlnum, name);
    StripTrimmed(name);
  }

  /** Names made of allowed characters, without whitespace at the outer ends, are kept verbatim. */
  lemma PlainNamesKept(isAlnum: char -> bool, artist: string, track: string)
    requires forall k :: 0 <= k < |artist| ==> Allowed(isAlnum, artist[k])
    requires forall k :: 0 <= k < |track| ==> Allowed(isAlnum, track[k])
    requires |artist| > 0 && !IsWhitespace(artist[0])
    requires |track| > 0 && !IsWhitespace(track[|track| - 1])
    ensures SafeFilename(isAlnum, artist, track) == artist + " - " + track
  {
    var s := artist + " - " + track;
    assert forall k :: 0 <= k < |s| ==> Allowed(isAlnum, s[k]) by {
      forall k | 0 <= k < |s|
        ensures Allowed(isAlnum, s[k])
      {
        if k < |artist| {
          assert s[k] == artist[k];
        } else if k >= |artist| + 3 {
          assert s[k] == track[k - |artist| - 3];
        }
      }
    }
    KeepAllowedIdentity(isAlnum, s);
    assert s[0] == artist[0] && s[|s| - 1] == track[|track| - 1];
    StripTrimmed(s);
  }

  lemma KeepAllowedChar(isAlnum: char -> bool, c: char)
    ensures KeepAllowed(isAlnum, [c]) == if Allowed(isAlnum, c) then [c] else []
  {
  }

  /** Empty artist and track leave only the hyphen of the separator. */
  lemma EmptyNames(isAlnum: char -> bool)
    ensures SafeFilename(isAlnum, "", "") == "-"
  {
    assert "" + " - " + "" == " - " == [' '] + ['-'] + [' '];
    KeepAllowedIdentity(isAlnum, " - ");
    StripSurrounded(" ", "-", " ");
  }

  /** The hyphen of the separator always survives, so the file name is never empty. */
  lemma SafeFilenameNonEmpty(isAlnum: char -> bool, artist: string, track: string)
    ensures |SafeFilename(isAlnum, artist, track)| > 0
  {
    var x := KeepAllowed(isAlnum, artist);
    var kept := KeepAllowed(isAlnum, artist + " - " + track);
    KeepAllowedConcat(isAlnum, artist + " - ", track);
    KeepAllowedConcat(isAlnum, artist, " - ");
    KeepAllowedIdentity(isAlnum, " - ");
    assert kept == x + " - " + KeepAllowed(isAlnum, track);
    assert kept[|x| + 1] == '-';
    var r := Strip(kept);
    var i :| StrippedAt(kept, r, i);
    StrippedKeepsNonWhitespace(kept, r, i, |x| + 1);
  }

  /** Two different songs can be saved under the same name: the sanitiser is not injective. */
  lemma DistinctSongsShareFilename(isAlnum: char -> bool)
    requires isAlnum('a') && isAlnum('b') && isAlnum('c') && !isAlnum('/')
    ensures SafeFilename(isAlnum, "a/b", "c") == SafeFilename(isAlnum, "ab", "c") == "ab - c"
  {
    SlashDropped(isAlnum);
    assert "ab" + " - " + "c" == "ab - c";
    SameFilteredSameName(isAlnum, "a/b", "c", "ab", "c");
    PlainFilename(isAlnum);
  }

  lemma SameFilteredSameName(isAlnum: char -> bool, artist1: string, track1: string, artist2: string, track2: string)
    requires KeepAllowed(isAlnum, artist1 + " - " + track1) == KeepAllowed(isAlnum, artist2 + " - " + track2)
    ensures SafeFilename(isAlnum, artist1, track1) == SafeFilename(isAlnum, artist2, track2)
            == Strip(KeepAllowed(isAlnum, artist2 + " - " + track2))
  {
  }

  lemma PlainFilename(isAlnum: char -> bool)
    requires isAlnum('a') && isAlnum('b') && isAlnum('c')
    ensures Strip(KeepAllowed(isAlnum, "ab - c")) == "ab - c"
  {
    var plain := "ab - c";
    assert forall k :: 0 <= k < |plain| ==> Allowed(isAlnum, plain[k]);
    KeepAllowedIdentity(isAlnum, plain);
    assert Trimmed(plain);
    StripTrimmed(plain);
  }

  lemma SlashDropped(isAlnum: char -> bool)
    requires !isAlnum('/')
    ensures KeepAllowed(isAlnum, "a/b" + " - " + "c") == KeepAllowed(isAlnum, "ab - c")
  {
    var rest := "b - c";
    assert "a/b" + " - " + "c" == "a" + ("/" + rest);
    assert "ab - c" == "a" + rest;
    KeepAllowedConcat(isAlnum, "a", "/" + rest);
    KeepAllowedConcat(isAlnum, "/", rest);
    KeepAllowedChar(isAlnum, '/');
    assert "/" == ['/'];
    KeepAllowedConcat(isAlnum, "a", rest);
  }

  /** The download settings `DOWNLOAD_FOLDER` and `AUDIO_FORMAT`. */
  datatype AudioConfig = AudioConfig(folder: string, format: string)

  /**
   * What a download attempt gives back: a file path, `None`, or an exception that
   * escapes the function (creating the download folder happens outside its `try`).
   */
  datatype DownloadReply = Saved(path: string) | NotSaved | DownloadRaised

  /**
   * `download_youtube_audio(url, track, artist)`. `mkdirRaises` says whether creating
   * the folder raises; `toolRaises(url)` whether the audio tool raises for that video.
   * The returned path names the configured format, whatever the tool produced.
   */
  function DownloadAudio(cfg: AudioConfig, isAlnum: char -> bool, mkdirRaises: bool, toolRaises: string -> bool,
                         url: string, track: string, artist: string): (r: DownloadReply)
    ensures r.DownloadRaised? <==> mkdirRaises
    ensures r.NotSaved? <==> !mkdirRaises && toolRaises(url)
    ensures r.Saved? ==> |r.path| > 0
    ensures r.Saved? ==> SavedAs(cfg, r.path, SafeFilename(isAlnum, artist, track))
  {
    if mkdirRaises then DownloadRaised
    else if toolRaises(url) then NotSaved
    else
      Saved(cfg.folder + "/" + SafeFilename(isAlnum, artist, track) + "." + cfg.format)
  }

  /** `path` is the file `name` with the configured extension inside the configured folder. */
  ghost predicate SavedAs(cfg: AudioConfig, path: string, name: string) {
    path == cfg.folder + "/" + name + "." + cfg.format
  }

  /** The saved path depends on the names only: two videos for the same names go to the same file. */
  lemma SavedPathIgnoresUrl(cfg: AudioConfig, isAlnum: char -> bool, toolRaises: string -> bool,
                            url1: string, url2: string, track: string, artist: string)
    requires !toolRaises(url1) && !toolRaises(url2)
    ensures DownloadAudio(cfg, isAlnum, false, toolRaises, url1, track, artist)
         == DownloadAudio(cfg, isAlnum, false, toolRaises, url2, track, artist)
  {
  }
}

=== FILE: listing.dfy ===
/**
 * Turning the entries of a YouTube Music listing into song records
 * (`get_ytmusic_liked_songs`, script.py lines 249-267; the same loop is repeated in
 * `get_ytmusic_playlist_songs`, lines 306-323).
 *
 * A title of the form "Artist - Song" is split at its first " - "; any other title is
 * the song, by the entry's uploader. An entry whose processing raises is skipped.
 */
module Listing {
  import opened Options
  import opened Text
  import opened Records

  const Separator: string := " - "

  /** The fields of one listing entry the program reads. */
  datatype Entry = Entry(title: Field, uploader: Field, id: Field)

  /** The artist and song parts of a title, before stripping. */
  datatype ArtistSong = ArtistSong(artist: string, song: string)

  /**
   * The artist/song split of `title`. `None` when the title has no " - " and the
   * uploader is `None`, because stripping `None` raises and the entry is skipped.
   */
  function SplitTitle(title: string, uploader: Field): (r: Option<ArtistSong>)
    ensures Contains(title, Separator) ==>
              && r.Some?
              && r.value.artist + Separator + r.value.song == title
              && (forall j :: 0 <= j < |r.value.artist| ==> !OccursAt(title, Separator, j))
              && !Contains(r.value.artist, Separator)
    ensures !Contains(title, Separator) ==>
              && (r.Some? <==> !uploader.Null?)
              && (r.Some? ==> r.value == ArtistSong(GetOr(uploader, "Unknown Artist").value, title))
  {
    if Contains(title, Separator) then
      var (artist, song) := SplitFirst(title, Separator);
      Some(ArtistSong(artist, song))
    else
      match GetOr(uploader, "Unknown Artist")
      case Text(artist) => Some(ArtistSong(artist, title))
      case _ => None
  }

  /** The record one entry contributes, or `None` when the entry is skipped. */
  function ParseEntry(entry: Option<Entry>): (r: Option<Track>)
    ensures r.None? <==>
              || entry.None?
              || entry.value.title.Null?
              || (var title := GetOr(entry.value.title, "Unknown").value;
                  !Contains(title, Separator) && entry.value.uploader.Null?)
    ensures r.Some? ==>
              var title := GetOr(entry.value.title, "Unknown").value;
              var parts := SplitTitle(title, entry.value.uploader).value;
              && r.value == Track(Strip(parts.song), Strip(parts.artist), "Unknown Album", YtMusic, GetOr(entry.value.id, ""))
              && Trimmed(r.value.name) && Trimmed(r.value.artist)
  {
    match entry
    case None => None
    case Some(e) =>
      match GetOr(e.title, "Unknown")
      case Text(title) =>
        (match SplitTitle(title, e.uploader)
         case Some(parts) =>
           Some(Track(Strip(parts.song), Strip(parts.artist), "Unknown Album", YtMusic, GetOr(e.id, "")))
         case None => None)
      case _ => None
  }

  /** What every record taken from a listing looks like. */
  predicate FromListing(t: Track) {
    t.source == YtMusic && t.album == "Unknown Album" && Trimmed(t.name) && Trimmed(t.artist)
  }

  /** The records parsed from a listing's entries, in listing order; entries that give no record are skipped. */
  function ParseEntries(entries: seq<Option<Entry>>): (songs: seq<Track>)
    ensures |songs| <= |entries|
    ensures forall t :: t in songs ==> FromListing(t)
  {
    if |entries| == 0 then []
    else
      var rest := ParseEntries(entries[1..]);
      match ParseEntry(entries[0])
      case Some(song) => [song] + rest
      case None => rest
  }

  /** One entry gives its own record when it parses, and nothing when it does not. */
  lemma ParseEntriesSingle(e: Option<Entry>)
    ensures ParseEntries([e]) == (if ParseEntry(e).Some? then [ParseEntry(e).value] else [])
  {
    assert [e][1..] == [];
  }

  /** A listing that could not be fetched (or had no entries) gives no songs. */
  function ListingSongs(listing: Option<seq<Option<Entry>>>): (songs: seq<Track>)
    ensures listing.None? ==> songs == []
    ensures listing.Some? ==> |songs| <= |listing.value|
  {
    match listing
    case None => []
    case Some(entries) => ParseEntries(entries)
  }

  /** Parsing works entry by entry: the records of two listings back to back are the records of each. */
  lemma {:induction false} ParseEntriesConcat(a: seq<Option<Entry>>, b: seq<Option<Entry>>)
    ensures ParseEntries(a + b) == ParseEntries(a) + ParseEntries(b)
    decreases |a|
  {
    if |a| == 0 {
      assert a + b == b;
    } else {
      assert (a + b)[0] == a[0];
      assert (a + b)[1..] == a[1..] + b;
      ParseEntriesConcat(a[1..], b);
    }
  }

  /** A listing in which no entry is skipped yields one record per entry. */
  lemma {:induction false} NothingSkipped(entries: seq<Option<Entry>>)
    requires forall k :: 0 <= k < |entries| ==> ParseEntry(entries[k]).Some?
    ensures |ParseEntries(entries)| == |entries|
    ensures forall k :: 0 <= k < |entries| ==> ParseEntries(entries)[k] == ParseEntry(entries[k]).value
    decreases |entries|
  {
    if |entries| > 0 {
      NothingSkipped(entries[1..]);
    }
  }

  /** A title without " - " is the song; with no uploader key the artist is "Unknown Artist". */
  lemma MissingUploaderIsUnknownArtist(title: string, id: Field)
    requires !Contains(title, Separator) && Trimmed(title)
    ensures ParseEntry(Some(Entry(Text(title), Absent, id))) ==
            Some(Track(title, "Unknown Artist", "Unknown Album", YtMusic, GetOr(id, "")))
  {
    var unknown := "Unknown Artist";
    assert SplitTitle(title, Absent) == Some(ArtistSong(unknown, title));
    StripTrimmed(title);
    assert Trimmed(unknown);
    StripTrimmed(unknown);
  }
}

=== FILE: options.dfy ===
/** The optional value used wherever the program has "a value or None". */
module Options {

  datatype Option<+T> = None | Some(value: T)
}

=== FILE: pipeline.dfy ===
/**
 * The processing stage of `main` (script.py lines 448-494) put together: the collected
 * songs are deduplicated, a confirmation is asked for more than 1000 of them, one task
 * per unique song runs `process_song`, and the outcomes are collected in completion order.
 *
 * The thread pool is not modelled as threads: each task gets its own view of the
 * services (`Backends`), and the order in which tasks finish is a parameter,
 * `completed`, which may be any reordering of the submitted outcomes.
 */
module Pipeline {
  import opened Options
  import opened Records
  import opened Sequences
  import opened Dedup
  import opened Resolution
  import opened Report
  import opened Download

  /** More unique songs than this need a confirmation. */
  const WarnAbove := 1000

  /** The run goes on only when the reply, lower-cased, is exactly the letter y. */
  predicate Confirms(answer: string) {
    answer == "y" || answer == "Y"
  }

  predicate Proceeds(count: nat, answer: string) {
    count <= WarnAbove || Confirms(answer)
  }

  /** One task per unique song, numbered from 1, each told the total. */
  function Submit(unique: seq<Track>, download: bool, bs: seq<Backends>): (os: seq<Outcome>)
    requires |bs| == |unique|
    ensures |os| == |unique|
    ensures forall i :: 0 <= i < |unique| ==>
              && os[i].result.song == unique[i]
              && os[i].message.index == i + 1
              && os[i].message.total == |unique|
    ensures forall i :: 0 <= i < |unique| ==> os[i] == ProcessSong(unique[i], download, i + 1, |unique|, bs[i])
  {
    seq(|unique|, i requires 0 <= i < |unique| => ProcessSong(unique[i], download, i + 1, |unique|, bs[i]))
  }

  function SongOf(r: SongResult): Track { r.song }

  function IndexOf(o: Outcome): int { o.message.index }

  /** What a finished run produces: the results file's entries and the summary. */
  datatype Run = Run(results: seq<SongResult>, summary: Summary)

  /**
   * `main` from the collected songs on. `answer` is the reply to the confirmation
   * question (only read when it is asked); `completed` is the order the jobs finish in.
   */
  method ProcessAll(allSongs: seq<Track>, download: bool, answer: string, bs: seq<Backends>, completed: seq<Outcome>)
    returns (run: Option<Run>)
    requires |bs| == |Dedupe(allSongs)|
    requires multiset(completed) == multiset(Submit(Dedupe(allSongs), download, bs))
    ensures run.None? <==> !Proceeds(|Dedupe(allSongs)|, answer)
    ensures run.Some? ==>
              var unique := Dedupe(allSongs);
              var r := run.value;
              && |r.results| == |unique|
              && r.results == MapSeq(ResultOf, completed)
              && multiset(MapSeq(SongOf, r.results)) == multiset(unique)
              && r.summary.total == |unique|
              && r.summary.successful == CountSuccesses(Submit(unique, download, bs))
              && r.summary.failed >= 0
              && r.summary.successful + r.summary.failed == r.summary.total
  {
    var unique := RemoveDuplicates(allSongs);
    if |unique| > WarnAbove && !Confirms(answer) {
      return None;
    }
    var results, successful := Collect(completed);
    assert results == MapSeq(ResultOf, completed);
    var submitted := Submit(unique, download, bs);
    CollectOrderIndependent(completed, submitted);
    ResultsCoverUniqueSongs(unique, download, bs, completed, results);
    run := Some(Run(results, Summarise(|unique|, successful)));
  }

  /** The results hold every unique song once, whatever the completion order. */
  lemma ResultsCoverUniqueSongs(unique: seq<Track>, download: bool, bs: seq<Backends>,
                                completed: seq<Outcome>, results: seq<SongResult>)
    requires |bs| == |unique|
    requires multiset(completed) == multiset(Submit(unique, download, bs))
    requires |results| == |completed|
    requires forall k :: 0 <= k < |completed| ==> results[k] == completed[k].result
    ensures multiset(MapSeq(SongOf, results)) == multiset(unique)
  {
    var songOfOutcome := (o: Outcome) => o.result.song;
    var submitted := Submit(unique, download, bs);
    MapSeqPermutation(songOfOutcome, completed, submitted);
    assert MapSeq(SongOf, results) == MapSeq(songOfOutcome, completed);
    assert MapSeq(songOfOutcome, submitted) == unique;
  }

  /** Distinct numbers occur at most once. */
  lemma {:induction false} DistinctMultiplicity(s: seq<int>, x: int)
    requires forall i, j :: 0 <= i < j < |s| ==> s[i] != s[j]
    ensures multiset(s)[x] == if x in s then 1 else 0
    decreases |s|
  {
    if |s| > 0 {
      assert s == [s[0]] + s[1..];
      DistinctMultiplicity(s[1..], x);
      assert x in s[1..] ==> x != s[0];
    }
  }

  /** Whatever the completion order, every number `1..total` is reported exactly once. */
  lemma EachTaskReportedOnce(unique: seq<Track>, download: bool, bs: seq<Backends>, completed: seq<Outcome>, n: int)
    requires |bs| == |unique|
    requires multiset(completed) == multiset(Submit(unique, download, bs))
    ensures multiset(MapSeq(IndexOf, completed))[n] == if 1 <= n <= |unique| then 1 else 0
  {
    var submitted := Submit(unique, download, bs);
    MapSeqPermutation(IndexOf, completed, submitted);
    var numbers := MapSeq(IndexOf, submitted);
    DistinctMultiplicity(numbers, n);
    if 1 <= n <= |unique| {
      assert numbers[n - 1] == n;
    }
  }

  /** A task whose services all raise. */
  function RaisingBackends(): Backends {
    Backends((track, artist, download) => SearchRaised, (url, track, artist) => DownloadRaised)
  }

  /**
   * One task's failure stays with that task: when the services seen by task `k` raise,
   * every other task's outcome is unchanged, task `k` fails unless it needs no service at
   * all, and the success count drops by at most one.
   */
  lemma FailureIsolation(unique: seq<Track>, download: bool, bs: seq<Backends>, k: nat)
    requires |bs| == |unique| && k < |unique|
    ensures var before := Submit(unique, download, bs);
            var after := Submit(unique, download, bs[k := RaisingBackends()]);
            && (forall i :: 0 <= i < |unique| && i != k ==> after[i] == before[i])
            && (after[k].success <==> HasVideoId(unique[k]) && !download)
            && (!after[k].success ==> after[k].message.status == Error)
            && CountSuccesses(before) - 1 <= CountSuccesses(after) <= CountSuccesses(before)
  {
    var before := Submit(unique, download, bs);
    var after := Submit(unique, download, bs[k := RaisingBackends()]);
    assert after == before[k := after[k]];
    CountUpdate(before, k, after[k]);
    if HasVideoId(unique[k]) && !download {
      assert before[k].success;
    }
  }

  /**
   * Two songs whose first search hits and whose second misses: the first task succeeds,
   * the second fails, and one success is counted in either completion order.
   */
  lemma PartialFailures(s1: Track, s2: Track, b1: Backends, b2: Backends, info: VideoInfo, completed: seq<Outcome>)
    requires s1.source == Spotify && s2.source == Spotify
    requires b1.search(s1.name, s1.artist, false) == Hit(info)
    requires b2.search(s2.name, s2.artist, false) == Miss
    requires multiset(completed) == multiset(Submit([s1, s2], false, [b1, b2]))
    ensures var os := Submit([s1, s2], false, [b1, b2]);
            os[0].success && !os[1].success && os[1].message.status == NotFound
    ensures CountSuccesses(completed) == 1
  {
    var os := Submit([s1, s2], false, [b1, b2]);
    assert os == [os[0]] + [os[1]];
    CountConcat([os[0]], [os[1]]);
    CollectOrderIndependent(completed, os);
  }

  /** Up to 1000 unique songs run without asking; beyond that only "y" or "Y" goes on. */
  lemma ConfirmationGate(count: nat, answer: string)
    ensures count <= 1000 ==> Proceeds(count, answer)
    ensures count > 1000 ==> (Proceeds(count, answer) <==> answer in {"y", "Y"})
    ensures !Proceeds(1001, "yes") && !Proceeds(1001, "") && Proceeds(1000, "no")
  {
  }
}

=== FILE: records.dfy ===
/**
 * The dictionaries the program passes around, as typed records.
 *
 * A Python dictionary entry can be missing, hold `None`, or hold a string; `Field`
 * keeps the three apart so that `d.get(key, default)` and truthiness tests are exact.
 */
module Records {
  import opened Options

  datatype Field = Absent | Null | Text(value: string)

  /** Python truthiness of `d.get(key)`: a non-empty string. */
  predicate Truthy(f: Field) {
    f.Text? && f.value != ""
  }

  /** `d.get(key, default)`: `None` when the key holds `None`, the default when the key is missing. */
  function GetOr(f: Field, default: string): Field {
    if f.Absent? then Text(default) else f
  }

  /** Which catalog a track record was listed from (the record's `'source'`). */
  datatype Source = Spotify | YtMusic

  /**
   * One song record. Spotify records have no `'videoId'` key (`Absent`); records
   * listed from YouTube Music carry the entry's video id.
   */
  datatype Track = Track(name: string, artist: string, album: string, source: Source, videoId: Field)

  /** The `'youtube'` part of a result: the video a track resolved to. */
  datatype VideoInfo = VideoInfo(title: Field, url: string, id: Field, downloadPath: Field)

  /** One entry of the results report: the input record and the video, if any. */
  datatype SongResult = SongResult(song: Track, youtube: Option<VideoInfo>)
}

=== FILE: report.dfy ===
/**
 * Collection of the per-song outcomes in `main` (script.py lines 468-494): each
 * finished task appends its result and bumps the success counter, in whatever
 * order the jobs complete; the summary derives the failures from the total.
 */
module Report {
  import opened Records
  import opened Resolution
  import opened Sequences

  function SuccessFlag(o: Outcome): bool { o.success }

  function ResultOf(o: Outcome): SongResult { o.result }

  /** How many outcomes report success, counted one by one. */
  function CountSuccesses(os: seq<Outcome>): (n: nat)
    ensures n <= |os|
  {
    if |os| == 0 then 0
    else CountSuccesses(os[1..]) + (if os[0].success then 1 else 0)
  }

  /** The count is the number of `true` flags among the outcomes. */
  lemma {:induction false} CountIsFlagMultiplicity(os: seq<Outcome>)
    ensures CountSuccesses(os) == multiset(MapSeq(SuccessFlag, os))[true]
    decreases |os|
  {
    if |os| > 0 {
      CountIsFlagMultiplicity(os[1..]);
      assert MapSeq(SuccessFlag, os) == [os[0].success] + MapSeq(SuccessFlag, os[1..]);
    }
  }

  /** No success counted means every task failed; a full count means every task succeeded. */
  lemma {:induction false} CountExtremes(os: seq<Outcome>)
    ensures CountSuccesses(os) == 0 <==> forall k :: 0 <= k < |os| ==> !os[k].success
    ensures CountSuccesses(os) == |os| <==> forall k :: 0 <= k < |os| ==> os[k].success
    decreases |os|
  {
    if |os| > 0 {
      CountExtremes(os[1..]);
      assert forall k :: 1 <= k < |os| ==> os[k] == os[1..][k - 1];
    }
  }

  /** Replacing one outcome changes the count by that outcome's flag only. */
  lemma {:induction false} CountUpdate(os: seq<Outcome>, k: nat, o: Outcome)
    requires k < |os|
    ensures CountSuccesses(os[k := o]) + (if os[k].success then 1 else 0)
            == CountSuccesses(os) + (if o.success then 1 else 0)
    decreases |os|
  {
    if k > 0 {
      CountUpdate(os[1..], k - 1, o);
      assert os[k := o][1..] == os[1..][k - 1 := o];
    } else {
      assert os[k := o][1..] == os[1..];
    }
  }

  lemma CountConcat(a: seq<Outcome>, b: seq<Outcome>)
    ensures CountSuccesses(a + b) == CountSuccesses(a) + CountSuccesses(b)
  {
    CountIsFlagMultiplicity(a);
    CountIsFlagMultiplicity(b);
    CountIsFlagMultiplicity(a + b);
    MapSeqConcat(SuccessFlag, a, b);
  }

  lemma CountSnoc(os: seq<Outcome>, o: Outcome)
    ensures CountSuccesses(os + [o]) == CountSuccesses(os) + (if o.success then 1 else 0)
  {
    CountConcat(os, [o]);
  }

  /** The summary printed after all tasks: total, successful, and failed as their difference. */
  datatype Summary = Summary(total: nat, successful: nat, failed: int)

  /** The `as_completed` loop: one result per finished task, one count per success. */
  method Collect(completed: seq<Outcome>) returns (results: seq<SongResult>, successful: nat)
    ensures |results| == |completed|
    ensures forall k :: 0 <= k < |completed| ==> results[k] == completed[k].result
    ensures successful == CountSuccesses(completed)
  {
    results := [];
    successful := 0;
    for i := 0 to |completed|
      invariant |results| == i
      invariant forall k :: 0 <= k < i ==> results[k] == completed[k].result
      invariant successful == CountSuccesses(completed[..i])
    {
      var o := completed[i];
      results := results + [o.result];
      if o.success {
        successful := successful + 1;
      }
      CountSnoc(completed[..i], o);
      assert completed[..i + 1] == completed[..i] + [o];
    }
    assert completed[..|completed|] == completed;
  }

  /** The summary of `total` tasks of which `successful` succeeded. */
  function Summarise(total: nat, successful: nat): (s: Summary)
    requires successful <= total
    ensures s.total == total && s.successful == successful
    ensures s.failed >= 0 && s.successful + s.failed == s.total
  {
    Summary(total, successful, total - successful)
  }

  /**
   * The completion order does not matter: any two orders of the same outcomes give the
   * same success count and the same results, up to order.
   */
  lemma CollectOrderIndependent(a: seq<Outcome>, b: seq<Outcome>)
    requires multiset(a) == multiset(b)
    ensures CountSuccesses(a) == CountSuccesses(b)
    ensures multiset(MapSeq(ResultOf, a)) == multiset(MapSeq(ResultOf, b))
  {
    CountIsFlagMultiplicity(a);
    CountIsFlagMultiplicity(b);
    MapSeqPermutation(SuccessFlag, a, b);
    MapSeqPermutation(ResultOf, a, b);
  }
}

=== FILE: resolution.dfy ===
/**
 * Resolving one song to a video and optionally downloading it: `search_youtube_for_song`
 * (script.py lines 88-123) and `process_song` (lines 331-375).
 *
 * The search tool and the downloader are parameters. A song listed from YouTube Music
 * with a video id is resolved directly; every other song is searched for. "Found" and
 * "Downloaded" are separate outcomes, and any exception becomes a failed outcome.
 */
module Resolution {
  import opened Options
  import opened Text
  import opened Records
  import opened Download

  const WatchPrefix: string := "https://www.youtube.com/watch?v="

  /** The string `f"{value}"` gives for a value that is present: `None` prints as "None". */
  function Show(f: Field): string
    requires !f.Absent?
  {
    if f.Null? then "None" else f.value
  }

  // ---------------------------------------------------------------- search

  /** One entry of a search listing, `None` when the entry itself is `None`. */
  datatype SearchEntry = SearchEntry(title: Field, id: Field)

  /**
   * What the search tool gives for a query: it raises, or it returns a listing.
   * A missing result, a result without `'entries'` and an empty list are all `Listing([])`.
   */
  datatype SearchListing = ListingRaised | Listing(entries: seq<Option<SearchEntry>>)

  /** What a search gives `process_song`: video information, `None`, or an escaping exception. */
  datatype SearchReply = Hit(info: VideoInfo) | Miss | SearchRaised

  /** The search string handed to the search tool: the best single match for "track artist". */
  function SearchQuery(track: string, artist: string): (q: string)
    ensures |q| == 11 + |track| + |artist|
    ensures q[..10] == "ytsearch1:"
    ensures q[10..10 + |track|] == track && q[10 + |track|] == ' ' && q[11 + |track|..] == artist
    // a track name without spaces can be read back off the query, and the artist after it
    ensures !Contains(track, " ") ==> Contains(q[10..], " ") && SplitFirst(q[10..], " ") == (track, artist)
  {
    var q := "ytsearch1:" + track + " " + artist;
    assert q[10..] == track + " " + artist;
    assert !Contains(track, " ") ==> Contains(q[10..], " ") && SplitFirst(q[10..], " ") == (track, artist) by {
      if !Contains(track, " ") { FirstSeparatorAfterPiece(track, " ", artist); }
    }
    q
  }

  /** The first entry, when it is not `None` and has an `'id'` (otherwise reading it raises). */
  function FirstUsableEntry(listing: SearchListing): (first: Option<SearchEntry>)
    ensures first.Some? ==> listing.Listing? && |listing.entries| > 0 && listing.entries[0] == first
                            && !first.value.id.Absent?
    ensures first.None? ==> || listing.ListingRaised?
                            || |listing.entries| == 0
                            || listing.entries[0].None?
                            || listing.entries[0].value.id.Absent?
  {
    if listing.Listing? && |listing.entries| > 0 && listing.entries[0].Some? && !listing.entries[0].value.id.Absent?
    then listing.entries[0]
    else None
  }

  /**
   * `search_youtube_for_song(track, artist, download)`. `extract` is the search tool;
   * `fetch(url, track, artist)` is `download_youtube_audio`. Every exception raised
   * inside is swallowed and reported as `None`.
   */
  function SearchForSong(track: string, artist: string, download: bool,
                         extract: string -> SearchListing,
                         fetch: (string, string, string) -> DownloadReply): (r: SearchReply)
    ensures !r.SearchRaised?
    ensures var first := FirstUsableEntry(extract(SearchQuery(track, artist)));
            r.Hit? <==> first.Some? && !(download && fetch(WatchPrefix + Show(first.value.id), track, artist).DownloadRaised?)
    ensures var first := FirstUsableEntry(extract(SearchQuery(track, artist)));
            r.Hit? ==> && r.info.id == first.value.id
                       && r.info.url == WatchPrefix + Show(first.value.id)
                       && r.info.title == GetOr(first.value.title, "")
    ensures r.Hit? && !download ==> r.info.downloadPath.Absent?
    ensures var first := FirstUsableEntry(extract(SearchQuery(track, artist)));
            r.Hit? && download ==>
              var reply := fetch(r.info.url, track, artist);
              r.info.downloadPath == (if reply.Saved? then Text(reply.path) else Null)
  {
    match FirstUsableEntry(extract(SearchQuery(track, artist)))
    case None => Miss
    case Some(video) =>
      var url := WatchPrefix + Show(video.id);
      var info := VideoInfo(GetOr(video.title, ""), url, video.id, Absent);
      if !download then Hit(info)
      else
        match fetch(url, track, artist)
        case DownloadRaised => Miss
        case NotSaved => Hit(info.(downloadPath := Null))
        case Saved(path) => Hit(info.(downloadPath := Text(path)))
  }

  // ---------------------------------------------------------------- process_song

  /** Which line `process_song` reports. */
  datatype Status = Downloaded | Found | DownloadFailed | NotFound | Error

  /** The progress line `[index/total] mark status: name - artist`, kept structured. */
  datatype Message = Message(index: int, total: int, status: Status, name: string, artist: string)

  /** The `(success, result, message)` triple of `process_song`. */
  datatype Outcome = Outcome(success: bool, result: SongResult, message: Message)

  /** `search(track, artist, download)` and `fetch(url, track, artist)`, as seen by one task. */
  datatype Backends = Backends(search: (string, string, bool) -> SearchReply,
                               fetch: (string, string, string) -> DownloadReply)

  /** A YouTube Music record with a (truthy) video id needs no search. */
  predicate HasVideoId(song: Track) {
    song.source == YtMusic && Truthy(song.videoId)
  }

  predicate Succeeded(st: Status) {
    st == Downloaded || st == Found
  }

  /** `process_song(song, download, index, total)`. */
  function ProcessSong(song: Track, download: bool, index: int, total: int, b: Backends): (o: Outcome)
    // every outcome reports on its own song, and succeeds exactly for "Downloaded" and "Found"
    ensures o.result.song == song
    ensures o.message == Message(index, total, o.message.status, song.name, song.artist)
    ensures o.success <==> Succeeded(o.message.status)
    // direct path: the video is the record's own, the search is never consulted
    ensures HasVideoId(song) ==>
              && o.result.youtube.Some?
              && o.result.youtube.value.id == song.videoId
              && o.result.youtube.value.url == WatchPrefix + song.videoId.value
              && o.result.youtube.value.title == Text(song.name)
    ensures HasVideoId(song) && !download ==>
              o.success && o.message.status == Found && o.result.youtube.value.downloadPath.Absent?
    ensures HasVideoId(song) && download ==>
              var reply := b.fetch(WatchPrefix + song.videoId.value, song.name, song.artist);
              && (o.success <==> reply.Saved? && reply.path != "")
              && o.message.status == (if reply.DownloadRaised? then Error
                                      else if reply.Saved? && reply.path != "" then Downloaded
                                      else DownloadFailed)
              && (o.success ==> o.result.youtube.value.downloadPath == Text(reply.path))
              && (!o.success ==> o.result.youtube.value.downloadPath.Absent?)
    // search path: success exactly when the search returns a video
    ensures !HasVideoId(song) ==>
              var reply := b.search(song.name, song.artist, download);
              && (o.success <==> reply.Hit?)
              && (o.message.status == NotFound <==> reply.Miss?)
              && (o.message.status == Error <==> reply.SearchRaised?)
              && (o.message.status == Downloaded <==> reply.Hit? && download && Truthy(reply.info.downloadPath))
              && (o.result.youtube.Some? <==> reply.Hit?)
              && (reply.Hit? ==> o.result.youtube.value == reply.info)
  {
    var result := SongResult(song, None);
    var say := (st: Status) => Message(index, total, st, song.name, song.artist);
    if HasVideoId(song) then
      var url := WatchPrefix + song.videoId.value;
      var video := VideoInfo(Text(song.name), url, song.videoId, Absent);
      var result := result.(youtube := Some(video));
      if download then
        match b.fetch(url, song.name, song.artist)
        case DownloadRaised => Outcome(false, result, say(Error))
        case NotSaved => Outcome(false, result, say(DownloadFailed))
        case Saved(path) =>
          if path != "" then
            Outcome(true, result.(youtube := Some(video.(downloadPath := Text(path)))), say(Downloaded))
          else Outcome(false, result, say(DownloadFailed))
      else Outcome(true, result, say(Found))
    else
      match b.search(song.name, song.artist, download)
      case SearchRaised => Outcome(false, result, say(Error))
      case Miss => Outcome(false, result.(youtube := None), say(NotFound))
      case Hit(info) =>
        var result := result.(youtube := Some(info));
        if download && Truthy(info.downloadPath) then Outcome(true, result, say(Downloaded))
        else Outcome(true, result, say(Found))
  }

  /** The backends the program actually wires in: the search tool behind `SearchForSong`, and the downloader. */
  function RealBackends(extract: string -> SearchListing, fetch: (string, string, string) -> DownloadReply): Backends {
    Backends((track, artist, download) => SearchForSong(track, artist, download, extract, fetch), fetch)
  }

  // ---------------------------------------------------------------- properties

  /** With a video id, the result does not depend on the search backend at all. */
  lemma DirectPathIgnoresSearch(song: Track, download: bool, index: int, total: int, b1: Backends, b2: Backends)
    requires HasVideoId(song) && b1.fetch == b2.fetch
    ensures ProcessSong(song, download, index, total, b1) == ProcessSong(song, download, index, total, b2)
  {
  }

  /** Without downloading, a song with a video id consults no backend and is reported found. */
  lemma ResolveOnlyNeedsNoBackend(song: Track, index: int, total: int, b1: Backends, b2: Backends)
    requires HasVideoId(song)
    ensures ProcessSong(song, false, index, total, b1) == ProcessSong(song, false, index, total, b2)
    ensures ProcessSong(song, false, index, total, b1).success
  {
  }

  /** An empty video id falls through to the search. */
  lemma EmptyVideoIdSearches(song: Track, download: bool, index: int, total: int, b: Backends)
    requires song.source == YtMusic && song.videoId == Text("")
    ensures var o := ProcessSong(song, download, index, total, b);
            o.success <==> b.search(song.name, song.artist, download).Hit?
  {
  }

  /** On the search path the downloader handed to `process_song` itself is never used. */
  lemma SearchPathIgnoresFetch(song: Track, download: bool, index: int, total: int, b1: Backends, b2: Backends)
    requires !HasVideoId(song) && b1.search == b2.search
    ensures ProcessSong(song, download, index, total, b1) == ProcessSong(song, download, index, total, b2)
  {
  }

  /** In download mode a video found by the search counts as a success even when no file was produced. */
  lemma FoundWithoutFileStillSucceeds(song: Track, index: int, total: int, b: Backends)
    requires !HasVideoId(song)
    requires var reply := b.search(song.name, song.artist, true);
             reply.Hit? && !Truthy(reply.info.downloadPath)
    ensures var o := ProcessSong(song, true, index, total, b);
            o.success && o.message.status == Found
  {
  }

  /** With the real search behind it, the search path never reports an error. */
  lemma RealSearchNeverErrors(song: Track, download: bool, index: int, total: int,
                              extract: string -> SearchListing, fetch: (string, string, string) -> DownloadReply)
    requires !HasVideoId(song)
    ensures ProcessSong(song, download, index, total, RealBackends(extract, fetch)).message.status != Error
  {
    var b := RealBackends(extract, fetch);
    assert b.search(song.name, song.artist, download) == SearchForSong(song.name, song.artist, download, extract, fetch);
  }

  /** A failing folder creation while downloading a search hit makes the song "Not found". */
  lemma FolderFailureReadsAsNotFound(song: Track, index: int, total: int,
                                     extract: string -> SearchListing, fetch: (string, string, string) -> DownloadReply)
    requires !HasVideoId(song)
    requires forall url :: fetch(url, song.name, song.artist) == DownloadRaised
    ensures ProcessSong(song, true, index, total, RealBackends(extract, fetch)).message.status == NotFound
  {
    var b := RealBackends(extract, fetch);
    assert b.search(song.name, song.artist, true) == SearchForSong(song.name, song.artist, true, extract, fetch);
  }

  // ---------------------------------------------------------------- the printed line

  function Mark(st: Status): string {
    if Succeeded(st) then "\U{2713}" else "\U{2717}"
  }

  function Word(st: Status): string {
    match st
    case Downloaded => "Downloaded"
    case Found => "Found"
    case DownloadFailed => "Download failed"
    case NotFound => "Not found"
    case Error => "Error"
  }

  /** The line `process_song` returns, e.g. "[3/10] ✗ Not found: Song - Artist". */
  function Render(m: Message): (line: string)
    ensures Contains(line, Word(m.status))
    ensures Contains(line, m.name + " - " + m.artist)
    ensures line[0] == '['
  {
    var head := "[" + IntToDecimal(m.index) + "/" + IntToDecimal(m.total) + "] " + Mark(m.status) + " ";
    var song := m.name + " - " + m.artist;
    ContainsBoth(head, Word(m.status), ": ", song);
    head + Word(m.status) + ": " + song
  }

  lemma ContainsBoth(a: string, w: string, b: string, x: string)
    ensures Contains(a + w + b + x, w) && Contains(a + w + b + x, x)
  {
    ContainsInfix(a, w, b + x);
    assert a + w + b + x == a + w + (b + x);
    ContainsInfix(a + w + b, x, "");
    assert a + w + b + x == a + w + b + x + "";
  }

  /** A Spotify song the search cannot find fails with a "Not found" line. */
  lemma NotFoundScenario(song: Track, b: Backends)
    requires song.source == Spotify
    requires b.search(song.name, song.artist, false) == Miss
    ensures var o := ProcessSong(song, false, 1, 1, b);
            !o.success && Contains(Render(o.message), "Not found")
  {
  }

  /** A YouTube Music song with id "abc123" whose download succeeds is a success about that video. */
  lemma VideoIdScenario(b: Backends)
    requires b.fetch(WatchPrefix + "abc123", "Song", "Artist") == Saved("/path/to/file.opus")
    ensures var song := Track("Song", "Artist", "Unknown", YtMusic, Text("abc123"));
            var o := ProcessSong(song, true, 1, 1, b);
            o.success && o.result.youtube.value.id == Text("abc123")
  {
  }
}

=== FILE: sequences.dfy ===
/** Generic facts about sequences: subsequences, element-wise mapping and permutations. */
module Sequences {

  /** `a` can be obtained from `b` by deleting elements, keeping the rest in order. */
  ghost predicate IsSubsequence<T>(a: seq<T>, b: seq<T>)
    decreases |b|
  {
    |a| == 0 || (|b| > 0 && ((a[0] == b[0] && IsSubsequence(a[1..], b[1..])) || IsSubsequence(a, b[1..])))
  }

  lemma {:induction false} SubsequenceReflexive<T>(a: seq<T>)
    ensures IsSubsequence(a, a)
    decreases |a|
  {
    if |a| > 0 {
      SubsequenceReflexive(a[1..]);
    }
  }

  lemma {:induction false} SubsequenceTransitive<T>(a: seq<T>, b: seq<T>, c: seq<T>)
    requires IsSubsequence(a, b) && IsSubsequence(b, c)
    ensures IsSubsequence(a, c)
    decreases |c|, |b|
  {
    if |a| > 0 {
      assert |b| > 0;
      if b[0] == c[0] && IsSubsequence(b[1..], c[1..]) {
        if a[0] == b[0] && IsSubsequence(a[1..], b[1..]) {
          SubsequenceTransitive(a[1..], b[1..], c[1..]);
        } else {
          SubsequenceTransitive(a, b[1..], c[1..]);
        }
      } else {
        SubsequenceTransitive(a, b, c[1..]);
      }
    }
  }

  /** Appending the same element to both sides, or only to the larger side, keeps a subsequence. */
  lemma {:induction false} SubsequenceAppend<T>(a: seq<T>, b: seq<T>, x: T)
    requires IsSubsequence(a, b)
    ensures IsSubsequence(a + [x], b + [x])
    ensures IsSubsequence(a, b + [x])
    decreases |b|
  {
    if |a| == 0 {
      assert a + [x] == [x];
      SubsequenceOfSuffix([x], b);
    } else {
      assert (a + [x])[1..] == a[1..] + [x];
      assert (b + [x])[1..] == b[1..] + [x];
      if a[0] == b[0] && IsSubsequence(a[1..], b[1..]) {
        SubsequenceAppend(a[1..], b[1..], x);
      } else {
        SubsequenceAppend(a, b[1..], x);
      }
    }
  }

  /** A sequence is a subsequence of itself with anything put in front. */
  lemma {:induction false} SubsequenceOfSuffix<T>(a: seq<T>, p: seq<T>)
    ensures IsSubsequence(a, p + a)
    decreases |p|
  {
    if |p| == 0 {
      assert p + a == a;
      SubsequenceReflexive(a);
    } else {
      assert (p + a)[1..] == p[1..] + a;
      SubsequenceOfSuffix(a, p[1..]);
    }
  }

  /** A prefix is a subsequence. */
  lemma {:induction false} PrefixIsSubsequence<T>(s: seq<T>, j: nat)
    requires j <= |s|
    ensures IsSubsequence(s[..j], s)
    decreases |s|
  {
    if j > 0 {
      assert s[..j][1..] == s[1..][..j - 1];
      PrefixIsSubsequence(s[1..], j - 1);
    }
  }

  /** A contiguous slice is a subsequence. */
  lemma InfixIsSubsequence<T>(s: seq<T>, i: nat, j: nat)
    requires i <= j <= |s|
    ensures IsSubsequence(s[i..j], s)
  {
    PrefixIsSubsequence(s[i..], j - i);
    assert s[i..][..j - i] == s[i..j];
    assert s == s[..i] + s[i..];
    SubsequenceOfSuffix(s[i..], s[..i]);
    SubsequenceTransitive(s[i..j], s[i..], s);
  }

  /** Element-wise application of `f`. */
  function MapSeq<A, B>(f: A -> B, s: seq<A>): (r: seq<B>)
    ensures |r| == |s|
    ensures forall k :: 0 <= k < |s| ==> r[k] == f(s[k])
  {
    seq(|s|, k requires 0 <= k < |s| => f(s[k]))
  }

  lemma MapSeqConcat<A, B>(f: A -> B, u: seq<A>, v: seq<A>)
    ensures MapSeq(f, u + v) == MapSeq(f, u) + MapSeq(f, v)
  {
  }

  /** Mapping two permutations of each other yields permutations of each other. */
  lemma {:induction false} MapSeqPermutation<A, B>(f: A -> B, a: seq<A>, b: seq<A>)
    requires multiset(a) == multiset(b)
    ensures multiset(MapSeq(f, a)) == multiset(MapSeq(f, b))
    decreases |a|
  {
    if |a| == 0 {
      assert |b| == |multiset(b)| == 0;
    } else {
      var x := a[0];
      assert x in multiset(b);
      var j :| 0 <= j < |b| && b[j] == x;
      var rest := b[..j] + b[j + 1..];
      assert b == b[..j] + [x] + b[j + 1..];
      assert a == [x] + a[1..];
      assert multiset(a) == multiset{x} + multiset(a[1..]);
      assert multiset(b) == multiset(b[..j]) + multiset{x} + multiset(b[j + 1..]);
      assert multiset(rest) == multiset(b[..j]) + multiset(b[j + 1..]);
      assert multiset(a[1..]) == multiset(a) - multiset{x};
      assert multiset(rest) == multiset(b) - multiset{x};
      MapSeqPermutation(f, a[1..], rest);
      MapSeqConcat(f, [x], a[1..]);
      MapSeqConcat(f, b[..j], b[j + 1..]);
      MapSeqConcat(f, b[..j] + [x], b[j + 1..]);
      MapSeqConcat(f, b[..j], [x]);
    }
  }
}

=== FILE: text.dfy ===
/**
 * The few pieces of Python's `str` that the program relies on: `isspace`/`strip`,
 * the `in` operator on strings, `split(sep)`, `split(sep, 1)`, `join` and the
 * decimal rendering of integers in f-strings.
 */
module Text {
  import opened Options

  /** Python's `str.isspace()` for one character: the characters `strip()` removes by default. */
  predicate IsWhitespace(c: char) {
    || c == ' '
    || '\t' <= c <= '\r'
    || '\U{1C}' <= c <= '\U{1F}'
    || c == '\U{85}' || c == '\U{A0}' || c == '\U{1680}'
    || '\U{2000}' <= c <= '\U{200A}'
    || c == '\U{2028}' || c == '\U{2029}' || c == '\U{202F}' || c == '\U{205F}' || c == '\U{3000}'
  }

  ghost predicate AllWhitespace(s: string) {
    forall k :: 0 <= k < |s| ==> IsWhitespace(s[k])
  }

  /** Neither the first nor the last character is whitespace. */
  predicate Trimmed(s: string) {
    |s| == 0 || (!IsWhitespace(s[0]) && !IsWhitespace(s[|s| - 1]))
  }

  function LeadingWhitespace(s: string): (n: nat)
    ensures n <= |s|
    ensures forall k :: 0 <= k < n ==> IsWhitespace(s[k])
    ensures n < |s| ==> !IsWhitespace(s[n])
  {
    if |s| == 0 || !IsWhitespace(s[0]) then 0 else 1 + LeadingWhitespace(s[1..])
  }

  function TrailingWhitespace(s: string): (n: nat)
    ensures n <= |s|
    ensures forall k :: |s| - n <= k < |s| ==> IsWhitespace(s[k])
    ensures n < |s| ==> !IsWhitespace(s[|s| - n - 1])
  {
    if |s| == 0 || !IsWhitespace(s[|s| - 1]) then 0 else 1 + TrailingWhitespace(s[..|s| - 1])
  }

  /** `r` is `s` with the whitespace `s[..i]` and the whitespace after `r` cut off. */
  ghost predicate StrippedAt(s: string, r: string, i: int) {
    && 0 <= i && i + |r| <= |s|
    && s[i..i + |r|] == r
    && AllWhitespace(s[..i])
    && AllWhitespace(s[i + |r|..])
  }

  /** Python's `s.strip()`. */
  function Strip(s: string): (r: string)
    ensures Trimmed(r)
    ensures exists i :: StrippedAt(s, r, i)
  {
    var i := LeadingWhitespace(s);
    var t := s[i..];
    var n := TrailingWhitespace(t);
    assert n < |t| ==> !IsWhitespace(t[0]);
    var r := t[..|t| - n];
    assert s[i..i + |r|] == r;
    assert StrippedAt(s, r, i);
    r
  }

  /** A character that is not whitespace lies inside the stripped part. */
  lemma StrippedKeepsNonWhitespace(s: string, r: string, i: int, k: int)
    requires StrippedAt(s, r, i)
    requires 0 <= k < |s| && !IsWhitespace(s[k])
    ensures i <= k < i + |r|
  {
  }

  /** Stripping leaves a string that has nothing to strip alone; in particular `Strip` is idempotent. */
  lemma StripTrimmed(s: string)
    requires Trimmed(s)
    ensures Strip(s) == s
  {
    var r := Strip(s);
    var i :| StrippedAt(s, r, i);
    assert i == 0 && |r| == |s|;
  }

  /** Stripping removes exactly the whitespace around a trimmed, non-empty core. */
  lemma StripSurrounded(p: string, core: string, q: string)
    requires AllWhitespace(p) && AllWhitespace(q)
    requires |core| > 0 && Trimmed(core)
    ensures Strip(p + core + q) == core
  {
    var s := p + core + q;
    assert s[|p|] == core[0];
    assert forall k :: 0 <= k < |p| ==> s[k] == p[k];
    assert LeadingWhitespace(s) == |p|;
    var t := s[|p|..];
    assert t == core + q;
    assert t[|core| - 1] == core[|core| - 1];
    assert forall k :: |core| <= k < |t| ==> t[k] == q[k - |core|];
    assert TrailingWhitespace(t) == |q|;
    assert t[..|t| - |q|] == core;
  }

  /** `pat` occurs in `s` starting at index `i`. */
  predicate OccursAt(s: string, pat: string, i: int) {
    0 <= i && i + |pat| <= |s| && s[i..i + |pat|] == pat
  }

  /** Python's `pat in s` on strings. */
  predicate Contains(s: string, pat: string) {
    exists i :: 0 <= i <= |s| && OccursAt(s, pat, i)
  }

  /** A string occurs in any string built around it. */
  lemma ContainsInfix(p: string, w: string, q: string)
    ensures Contains(p + w + q, w)
  {
    assert (p + w + q)[|p|..|p| + |w|] == w;
    assert OccursAt(p + w + q, w, |p|);
  }

  /** A one-character pattern occurs exactly where that character is. */
  lemma ContainsChar(s: string, c: char)
    ensures Contains(s, [c]) <==> c in s
  {
    if c in s {
      var i :| 0 <= i < |s| && s[i] == c;
      assert OccursAt(s, [c], i);
    }
    forall i | OccursAt(s, [c], i)
      ensures s[i] == c
    {
      assert s[i..i + 1][0] == s[i];
    }
  }

  /** Joining one more piece at the end adds one separator and that piece. */
  lemma {:induction false} JoinSnoc(parts: seq<string>, x: string, sep: string)
    requires |parts| > 0
    ensures Join(parts + [x], sep) == Join(parts, sep) + sep + x
    decreases |parts|
  {
    if |parts| > 1 {
      assert (parts + [x])[1..] == parts[1..] + [x];
      JoinSnoc(parts[1..], x, sep);
    } else {
      assert (parts + [x])[1..] == [x];
    }
  }

  function FindFrom(s: string, pat: string, from: nat): (r: Option<nat>)
    ensures r.Some? ==> from <= r.value && OccursAt(s, pat, r.value)
    ensures r.Some? ==> forall j :: from <= j < r.value ==> !OccursAt(s, pat, j)
    ensures r.None? ==> forall j :: from <= j ==> !OccursAt(s, pat, j)
    decreases |s| - from
  {
    if from + |pat| > |s| then None
    else if s[from..from + |pat|] == pat then Some(from)
    else FindFrom(s, pat, from + 1)
  }

  /** Python's `s.find(pat)`: the index of the first occurrence, if any. */
  function Find(s: string, pat: string): (r: Option<nat>)
    ensures r.Some? <==> Contains(s, pat)
    ensures r.Some? ==> OccursAt(s, pat, r.value)
    ensures r.Some? ==> forall j :: 0 <= j < r.value ==> !OccursAt(s, pat, j)
  {
    FindFrom(s, pat, 0)
  }

  /** An occurrence inside a prefix is an occurrence in the whole string. */
  lemma OccursInPrefix(s: string, pat: string, i: nat, j: int)
    requires i <= |s| && OccursAt(s[..i], pat, j)
    ensures OccursAt(s, pat, j)
  {
    assert s[..i][j..j + |pat|] == s[j..j + |pat|];
  }

  /** Python's `s.split(sep, 1)` for an `s` that contains `sep`: the text before and after the first `sep`. */
  function SplitFirst(s: string, sep: string): (r: (string, string))
    requires |sep| > 0 && Contains(s, sep)
    ensures r.0 + sep + r.1 == s
    ensures forall j :: 0 <= j < |r.0| ==> !OccursAt(s, sep, j)
    ensures !Contains(r.0, sep)
  {
    var i := Find(s, sep).value;
    assert s == s[..i] + sep + s[i + |sep|..];
    assert !Contains(s[..i], sep) by {
      forall j | 0 <= j <= i && OccursAt(s[..i], sep, j)
        ensures false
      {
        OccursInPrefix(s, sep, i, j);
      }
    }
    (s[..i], s[i + |sep|..])
  }

  /** Python's `sep.join(parts)`. */
  function Join(parts: seq<string>, sep: string): string {
    if |parts| == 0 then ""
    else if |parts| == 1 then parts[0]
    else parts[0] + sep + Join(parts[1..], sep)
  }

  /** Python's `s.split(sep)` for a non-empty separator: the pieces between consecutive occurrences. */
  function Split(s: string, sep: string): (parts: seq<string>)
    requires |sep| > 0
    ensures |parts| > 0
    ensures Join(parts, sep) == s
    ensures forall k :: 0 <= k < |parts| ==> !Contains(parts[k], sep)
    decreases |s|
  {
    if !Contains(s, sep) then [s]
    else
      var (before, after) := SplitFirst(s, sep);
      var rest := Split(after, sep);
      assert ([before] + rest)[1..] == rest;
      [before] + rest
  }

  /** No proper non-empty prefix of `sep` is also a suffix of it, so occurrences of `sep` cannot overlap. */
  predicate Borderless(sep: string) {
    forall d :: 0 < d < |sep| ==> sep[d..] != sep[..|sep| - d]
  }

  /** With a borderless separator, a piece free of `sep` ends exactly where the first `sep` begins. */
  lemma {:induction false} FirstSeparatorAfterPiece(a: string, sep: string, b: string)
    requires |sep| > 0 && Borderless(sep) && !Contains(a, sep)
    ensures Contains(a + sep + b, sep)
    ensures SplitFirst(a + sep + b, sep) == (a, b)
  {
    var s := a + sep + b;
    assert OccursAt(s, sep, |a|);
    forall j | 0 <= j < |a| && OccursAt(s, sep, j)
      ensures false
    {
      if j + |sep| <= |a| {
        assert s[..|a|] == a;
        assert OccursAt(a, sep, j) by {
          assert a[j..j + |sep|] == s[j..j + |sep|];
        }
      } else {
        StraddlingOccurrence(a, sep, b, j);
      }
    }
    var r := SplitFirst(s, sep);
    assert |r.0| == |a|;
    assert r.0 == s[..|a|] == a;
    assert r.1 == s[|a| + |sep|..] == b;
  }

  /** An occurrence of `sep` that starts inside `a` and ends inside the `sep` after it exhibits a border of `sep`. */
  lemma StraddlingOccurrence(a: string, sep: string, b: string, j: int)
    requires 0 <= j < |a| < j + |sep| && OccursAt(a + sep + b, sep, j)
    ensures sep[|a| - j..] == sep[..|sep| - (|a| - j)]
  {
    var s := a + sep + b;
    var d := |a| - j;
    assert sep[d..] == s[j..j + |sep|][d..] == s[|a|..j + |sep|];
    assert sep[..|sep| - d] == s[|a|..|a| + |sep|][..|sep| - d] == s[|a|..|a| + |sep| - d];
  }

  /** Splitting undoes joining when no piece contains the (borderless) separator. */
  lemma {:induction false} SplitJoin(parts: seq<string>, sep: string)
    requires |sep| > 0 && Borderless(sep) && |parts| > 0
    requires forall k :: 0 <= k < |parts| ==> !Contains(parts[k], sep)
    ensures Split(Join(parts, sep), sep) == parts
    decreases |parts|
  {
    if |parts| == 1 {
    } else {
      var s := Join(parts, sep);
      FirstSeparatorAfterPiece(parts[0], sep, Join(parts[1..], sep));
      SplitJoin(parts[1..], sep);
      assert parts == [parts[0]] + parts[1..];
    }
  }

  /** The decimal digits of `n`, as Python's `str(n)` writes a non-negative integer. */
  function NatToDecimal(n: nat): (r: string)
    ensures |r| > 0
    ensures forall k :: 0 <= k < |r| ==> '0' <= r[k] <= '9'
    ensures |r| > 1 ==> r[0] != '0'
  {
    var digit := ['0' + (n % 10) as char];
    if n < 10 then digit else NatToDecimal(n / 10) + digit
  }

  /** The value of a string of decimal digits. */
  function DecimalValue(s: string): nat
    requires forall k :: 0 <= k < |s| ==> '0' <= s[k] <= '9'
  {
    if |s| == 0 then 0 else 10 * DecimalValue(s[..|s| - 1]) + (s[|s| - 1] - '0') as nat
  }

  /** Reading the digits back gives the number that was written. */
  lemma {:induction false} DecimalRoundTrip(n: nat)
    ensures DecimalValue(NatToDecimal(n)) == n
  {
    var r := NatToDecimal(n);
    if n >= 10 {
      DecimalRoundTrip(n / 10);
      assert r[..|r| - 1] == NatToDecimal(n / 10);
    }
  }

  /** Python's `f"{i}"` for an integer. */
  function IntToDecimal(i: int): (r: string)
    ensures |r| > 0
    ensures r[0] == '-' <==> i < 0
    // after the sign come decimal digits that read back as the magnitude
    ensures var digits := if i < 0 then r[1..] else r;
            && (forall k :: 0 <= k < |digits| ==> '0' <= digits[k] <= '9')
            && DecimalValue(digits) == (if i < 0 then -i else i)
  {
    var magnitude := if i < 0 then -i else i;
    DecimalRoundTrip(magnitude);
    if i < 0 then
      var r := "-" + NatToDecimal(magnitude);
      assert r[1..] == NatToDecimal(magnitude);
      r
    else NatToDecimal(i)
  }
}
